=== FILE: README.md ===
# VDXConvert, modelled in Dafny

VDXConvert batch-converts Visio drawings (`.vsd`, `.vsdx`, `.vsdm`, `.vdw`) from
an input folder into VDX XML in an output folder, and moves each converted
original into an archive folder. This project models the decision logic of
`vdxconvert.py`. The filesystem, the parsing library and the external
converters are abstracted:

- the filesystem is the set of existing paths, each a (directory, name) pair;
- a directory listing is a sequence of (name, is-regular-file) entries;
- the parsing library's view of a drawing is a `SourceDrawing` value, or
  `None` when it raises;
- each external converter run (unoconv, LibreOffice `soffice`) is an
  `Attempt`: how it ended, plus the names it left in the scratch directory;
- the archive move is a `MoveOutcome`.

Modules, one per component:

| file | module | models |
|---|---|---|
| `options.dfy` | `Options` | Python's `None`-able values |
| `seqs.dfy` | `Seqs` | order-preserving filtering and counting, written as the append loops of the source |
| `decimal.dfy` | `Decimal` | `str(n)` for the probe counter and the `Shape_<j>` fallback |
| `pathnames.dfy` | `PathNames` | `os.path.splitext` (POSIX) and `str.lower` (ASCII) |
| `unique_name.dfy` | `UniqueName`, `NamingScenario` | `get_unique_filename` |
| `discovery.dfy` | `Discovery` | `get_visio_files` |
| `builder.dfy` | `Builder` | the element tree built by `convert_vsdx_to_vdx` |
| `backends.dfy` | `Backends` | the unoconv / soffice fallback of `convert_vsd_to_vdx` |
| `pipeline.dfy` | `Pipeline` | routing and the per-file state change of `process_file` |
| `batch.dfy` | `Batch` | the per-file loop of `main` and the counts of `print_summary` |

In these places the code's behaviour is easy to misread; the model follows the code:

- A file whose backend is unavailable gets the generic error
  `"Conversion process failed"`. The unavailability is only logged.
- If launching unoconv raises something other than `SubprocessError` or
  `FileNotFoundError` (a `PermissionError`, say), the outer handler of
  `convert_vsd_to_vdx` catches it and soffice is never tried. The two
  attempts are therefore not fully independent (`RaisedOther`).
- Both converters write into one scratch directory. A file that unoconv left
  before failing with a non-zero exit is seen by the check after soffice.
- A converter that writes the file but exits non-zero counts as failed, so
  success is not decided by the file's existence alone.
- If the archive move raises, the result is a failure carrying the
  exception's message, and the written output stays.
- Discovery returns a list in listing order, not a set.

## Model

| member | source | states |
|---|---|---|
| PathNames.SplitExt | vdxconvert.py:197 | the root and extension concatenate back to the name, and the extension is empty or one leading dot followed by no dot or slash |
| PathNames.SplitExtSuffix | vdxconvert.py:186-187 | a name's extension is `x` exactly when the name ends with `x` after a final component that is not all dots |
| PathNames.Lower | vdxconvert.py:186 | lower-casing keeps the length and folds each character on its own, mapping `A`..`Z` to `a`..`z` and leaving every other character as it is |
| PathNames.LowerSplitExt | vdxconvert.py:359-360 | lower-casing then splitting (discovery) and splitting then lower-casing the extension (dispatch) agree |
| Decimal.NatToString | vdxconvert.py:201 | the rendering is a non-empty run of decimal digits with no leading zero (except `0` itself), with at least two digits from 10 on; with the round trip this fixes it as Python's `str(n)` |
| Decimal.ParseNatToString | vdxconvert.py:201 | the decimal rendering of the counter reads back as the counter |
| Decimal.NatToStringInjective | vdxconvert.py:201 | distinct counters render to distinct strings |
| UniqueName.CandidateInjective | vdxconvert.py:199-204 | distinct counters give distinct probe paths `name_k.ext` |
| UniqueName.ProbedSize | vdxconvert.py:199-204 | the first `n - 1` probes are pairwise distinct, which bounds the probing by the size of the filesystem |
| UniqueName.GetUniqueFilename | vdxconvert.py:191-204 | a free path is returned unchanged; a taken one becomes the free probe with the least counter `k >= 1`, with `k <= |fs| + 1`; the result never exists already |
| UniqueName.ProbeIsLeast | vdxconvert.py:199-204 | the probe the naming promises is unique: with probes below `m` taken and probe `m` free, the result is probe `m` |
| UniqueName.CandidateDiffers | vdxconvert.py:201 | a probe never repeats the name it replaces |
| NamingScenario.FooCandidateK | vdxconvert.py:197-201 | probe `k` of `foo.vdx` is `foo_<k>.vdx`: the counter goes between the root and the extension |
| NamingScenario.SmallCounters | vdxconvert.py:201 | the counters 1 and 2 render as the single digits `1` and `2`; with `FooCandidateK` the first two probes of `foo.vdx` are `foo_` + `1` + `.vdx` and `foo_` + `2` + `.vdx` |
| NamingScenario.RepeatedCollisions | vdxconvert.py:191-204 | with the name taken, the next file gets probe 1, and with that taken too, the one after gets probe 2 |
| Discovery.GetVisioFiles | vdxconvert.py:180-189 | every returned path lies in the directory and names a regular-file entry with a supported extension, and every such entry is returned |
| Discovery.DiscoveryIsOrderedSelection | vdxconvert.py:182-189 | the k-th returned path is the k-th matching entry, in listing order, and no matching entry is skipped |
| Discovery.VisioEntryBySuffix | vdxconvert.py:185-187 | an entry is kept exactly when it is a regular file whose lower-cased name ends with one of the four extensions after a final component that is not all dots |
| Seqs.FilterIsSelection | vdxconvert.py:182-189 | the append loop keeps exactly the passing elements, in order, and keeps as many as it counts |
| Builder.BuildDocument | vdxconvert.py:216-261 | title and creator are set; pages are numbered 1..n in order with the source's name and size; shapes are numbered from 1 on each page and named `Shape_<j>` when nameless; position and size appear only when both halves are present |
| Builder.ExtractBuild | vdxconvert.py:230-261 | reading the built tree back gives the drawing reduced to what the tree keeps |
| Builder.BuildNormalize | vdxconvert.py:243-261 | building from the reduced drawing gives the same tree |
| Builder.BuildLosesOnlyNormalization | vdxconvert.py:243-261 | two drawings give the same tree exactly when they agree once reduced |
| Builder.ConvertVsdxToVdx | vdxconvert.py:212-271 | the native conversion succeeds exactly when the library read the drawing and the write succeeded; the document written is then exactly the tree `BuildDocument` builds from that drawing under the given title, and reading it back gives the reduced drawing |
| Backends.ArtifactName | vdxconvert.py:281-295 | for an input with an extension, the expected artifact splits into the input's root and `.vdx`: only the extension is replaced |
| Backends.ConvertVsdToVdx | vdxconvert.py:283-342 | unoconv always runs first; soffice runs exactly when unoconv's own handler caught a failure or it finished without the file; success exactly when a started attempt ended normally with the file present |
| Backends.RunInOrder | vdxconvert.py:283-342 | an ordered attempt list stops at the first success or uncaught failure, and every attempt before the last one neither succeeded nor raised past its handler |
| Backends.ChainIsOrderedList | vdxconvert.py:283-342 | the two-backend chain is the ordered-list run of `[unoconv, soffice]` |
| Pipeline.ExtensionOfLowered | vdxconvert.py:359-360 | the extension the dispatch tests is the one `splitext` finds in the lower-cased name, is empty or a single dot-led extension, and holds no upper-case ASCII letter |
| Pipeline.Dispatch | vdxconvert.py:377-389 | the builder runs only for `.vsdx`/`.vsdm` with the library present, the external chain only for `.vsd`/`.vdw` with a converter reachable, and otherwise nothing runs and the conversion fails |
| Pipeline.DispatchDocument | vdxconvert.py:378-380 | a document tree is produced exactly when the builder runs and converts, and it is the tree built from the drawing with the file's base name as title (line 222) |
| Pipeline.ProcessFile | vdxconvert.py:356-428 | the record has output and archive exactly on success and an error exactly on failure; on success both names are fresh, each is its base path when that is free and otherwise the first free `_k` probe of it, and the input is moved; an unconverted file gets the generic error and changes nothing; a failed move records its message and leaves exactly one new file, the output at its computed name (the base path or its first free probe); no other file disappears |
| Batch.ProcessedExtends | vdxconvert.py:542-544 | one more processed file keeps the batch invariant |
| Batch.ProcessAll | vdxconvert.py:535-544 | one well-formed result per file in order, each decided by its own file only; successful outputs and archives are distinct and present; nothing outside the input folder is removed |
| Batch.Summarize | vdxconvert.py:444-446 | successes and failures add up to the number of results, and there are no failures when every result succeeded |
| Batch.SummaryFailures | vdxconvert.py:470-477 | the failure list has `failed` lines, the failed results with their errors in processing order |
| Batch.Run | vdxconvert.py:521-547 | one result per discovered file in discovery order, each a success exactly when its own file converts and moves; no summary when nothing is discovered, otherwise the summary of those results; successful outputs and archives distinct and present; nothing outside the input folder removed |
| Batch.DiscoveredFilesAreRouted | vdxconvert.py:378-389 | a discovered file always reaches one of the two backend families, so the unsupported-extension branch is unreachable after discovery |

## Left out

- Dependency probing (registry lookup, `which`/`where`, `subprocess`; lines 114-177): only the two resulting booleans are modelled, as `Capabilities`.
- The `vsdx` library and the unoconv / soffice processes, including the Windows `soffice.exe` lookup (lines 305-311): they are foreign code. Oracle values describe them (`SourceDrawing`, `Attempt`).
- The `ImportError` raised by `convert_vsdx_to_vdx` when the library is missing (lines 209-210): `main` passes the library flag to `process_file`, so the builder is only reached when the library is present.
- XML serialisation by `ElementTree.write` and the text of numbers (`str(page.width)`): the model stops at the element tree, with measures kept as reals.
- The CSV report (lines 430-440, 549-561): its quoting rules live in the `csv` module. The interactive prompt that gates it is also left out.
- Processing times and their sums (lines 362, 391-392, 417-418, 447): wall-clock floats. `ConversionResult` has no time field.
- Scratch-directory creation and cleanup (lines 276-278, 347-354). The chain is assumed to start from an empty scratch directory, because `rmtree` errors are swallowed and the code guarantees nothing there. The scratch folder (`logs/temp`) is outside the modelled file system: line 352 deletes it with everything in it after each `.vsd`/`.vdw` conversion, so the promise that nothing outside the input folder is removed (Pipeline.ProcessFile, Batch.ProcessAll, Batch.Run) does not cover it.
- Failures of `shutil.copy2` / `os.remove` on the converter's output (lines 297-298, 333-334): the model treats a found file as copied.
- Partial files: a conversion that fails is assumed to leave no output file behind.
- Pipeline.ProcessFile: when the archive move raises, the model assumes the move added no file. `shutil.move` across file systems copies with `copy2` and then unlinks, so a full or partial copy of the input could remain in the archive folder; only the written output is modelled as new.
- Logging, colours, progress bars, banners, argument parsing, and the interrupt and exit-code handling (lines 62-111, 482-520, 563-573): presentation and process plumbing.
- PathNames.Lower: folds ASCII letters only. Python's `str.lower` also folds other Unicode letters, and some of them change length.
- UniqueName.GetUniqueFilename: a path exists only if that exact name does. On case-insensitive file systems (Windows, the macOS default) `os.path.exists` also matches other casings of the name, so there `FOO.vdx` would make `foo.vdx` collide; the model does not.
- PathNames.SplitExt: follows the POSIX `splitext`. The Windows variant also splits at `\` and at a drive colon.
- Batch.Run: there is one oracle per discovered file. The listing is not checked against the filesystem, so a race with other processes is not modelled.
- Pipeline.ProcessFile: requires the input to lie in the input folder and the three folders to be distinct. `main` guarantees both: it only passes discovered files, and the folder constants differ.

=== FILE: backends.dfy ===
/**
 The external-process backend (`convert_vsd_to_vdx`): unoconv first, LibreOffice
 (`soffice`) as the fallback. The processes are not modelled; each attempt is
 described by how it ended.
 */
module Backends {
  import opened PathNames

  datatype Tool = Unoconv | Soffice

  /**
   How one external attempt ended. `Completed` is a normal exit.
   `RaisedExpected` is a `SubprocessError` (a non-zero exit included) or a
   `FileNotFoundError`, which the attempt's own handler catches. `RaisedOther`
   is any other exception: it reaches the handler around the whole chain.
   */
  datatype Ending = Completed | RaisedExpected | RaisedOther

  /** One external attempt: how it ended and the names it left in the scratch directory. */
  datatype Attempt = Attempt(ending: Ending, written: set<string>)

  /** What the chain reports, with the tools it started in the order it started them. */
  datatype ChainOutcome = ChainOutcome(converted: bool, tried: seq<Tool>)

  /** The file the converters are expected to leave: the input's root with `.vdx`. */
  function ArtifactName(inputName: string): (a: string)
    ensures SplitExt(inputName).ext != [] ==> SplitExt(a) == Split(SplitExt(inputName).root, ".vdx")
  {
    assert ValidExt(".vdx");
    ReplaceExt(inputName, ".vdx");
    SplitExt(inputName).root + ".vdx"
  }

  /**
   The check after an attempt: it ended normally and the scratch directory,
   holding what every attempt so far wrote, contains the expected file.
   */
  predicate Found(a: Attempt, scratch: set<string>, artifact: string)
  {
    a.ending.Completed? && artifact in scratch
  }

  /**
   The fallback chain for the file named `inputName`, starting from an empty
   scratch directory. unoconv is always started first; soffice is started
   exactly when unoconv failed in the way its own handler catches or
   finished without leaving the file. The chain succeeds exactly when an
   attempt it started ended normally with the file present; the file may
   then come from either attempt, since both write to the same directory.
   */
  function ConvertVsdToVdx(inputName: string, unoconv: Attempt, soffice: Attempt): (out: ChainOutcome)
    ensures |out.tried| >= 1 && out.tried[0] == Unoconv
    ensures Unoconv !in out.tried[1..]
    ensures Soffice in out.tried <==>
              unoconv.ending.RaisedExpected?
              || (unoconv.ending.Completed? && ArtifactName(inputName) !in unoconv.written)
    ensures out.converted <==>
              Found(unoconv, unoconv.written, ArtifactName(inputName))
              || (Soffice in out.tried && Found(soffice, unoconv.written + soffice.written, ArtifactName(inputName)))
    ensures out.converted ==> ArtifactName(inputName) in unoconv.written + soffice.written
  {
    var artifact := ArtifactName(inputName);
    if Found(unoconv, unoconv.written, artifact) then ChainOutcome(true, [Unoconv])
    else if unoconv.ending.RaisedOther? then ChainOutcome(false, [Unoconv])
    else ChainOutcome(Found(soffice, unoconv.written + soffice.written, artifact), [Unoconv, Soffice])
  }

  /** The union of what the first `n` attempts wrote. */
  function WrittenBy(attempts: seq<Attempt>, n: nat): set<string>
    requires n <= |attempts|
  {
    if n == 0 then {} else WrittenBy(attempts, n - 1) + attempts[n - 1].written
  }

  /**
   An ordered list of attempts sharing one scratch directory that already
   holds `scratch`, run until one ends normally with the file present
   (success), one raises past its handler (failure), or the list runs out
   (failure). Returns whether it succeeded and how many attempts it started;
   every attempt before the last one started ended without success and
   without raising past its handler.
   */
  function RunInOrder(artifact: string, scratch: set<string>, attempts: seq<Attempt>): (r: (bool, nat))
    ensures r.1 <= |attempts|
    ensures attempts != [] ==> r.1 >= 1
    ensures r.0 <==> r.1 >= 1 && Found(attempts[r.1 - 1], scratch + WrittenBy(attempts, r.1), artifact)
    ensures forall i :: 0 <= i < r.1 - 1 ==>
              !Found(attempts[i], scratch + WrittenBy(attempts, i + 1), artifact) && !attempts[i].ending.RaisedOther?
    ensures r.1 < |attempts| ==> r.1 >= 1 && (r.0 || attempts[r.1 - 1].ending.RaisedOther?)
    decreases |attempts|
  {
    if attempts == [] then (false, 0)
    else
      var now := scratch + attempts[0].written;
      if Found(attempts[0], now, artifact) then (true, 1)
      else if attempts[0].ending.RaisedOther? then (false, 1)
      else
        var rest := RunInOrder(artifact, now, attempts[1..]);
        WrittenByShift(attempts, rest.1);
        (rest.0, rest.1 + 1)
  }

  /** What the attempts after the first wrote, on top of what the first wrote. */
  lemma {:induction false} WrittenByShift(attempts: seq<Attempt>, n: nat)
    requires 1 <= n + 1 <= |attempts|
    ensures forall m :: 0 <= m <= n ==> attempts[0].written + WrittenBy(attempts[1..], m) == WrittenBy(attempts, m + 1)
  {
    if n > 0 {
      WrittenByShift(attempts, n - 1);
      assert attempts[1..][n - 1] == attempts[n];
    }
  }

  /** The chain is the ordered-list reading with unoconv before soffice and an empty scratch directory. */
  lemma ChainIsOrderedList(inputName: string, unoconv: Attempt, soffice: Attempt)
    ensures var out := ConvertVsdToVdx(inputName, unoconv, soffice);
            var run := RunInOrder(ArtifactName(inputName), {}, [unoconv, soffice]);
            out.converted == run.0 && |out.tried| == run.1
  {
    assert [unoconv, soffice][1..] == [soffice];
  }
}

=== FILE: batch.dfy ===
/** The per-file loop of `main` and the counts of `print_summary`. */
module Batch {
  import opened Options
  import opened PathNames
  import opened UniqueName
  import Seqs
  import Discovery
  import opened Pipeline

  /**
   What holds after the first `|results|` files have been processed,
   starting from file system `fs0` and arriving at `fs`, where `verdicts[i]`
   says whether file `i` is to succeed.
   */
  ghost predicate Processed(layout: Layout, fs0: FileSystem, files: seq<Path>,
                            verdicts: seq<bool>, results: seq<ConversionResult>, fs: FileSystem)
  {
    && |results| <= |files| == |verdicts|
    && (forall i :: 0 <= i < |results| ==> results[i].filename == files[i].name && WellFormed(results[i]))
    && (forall i :: 0 <= i < |results| ==> results[i].success == verdicts[i])
    && (forall i :: 0 <= i < |results| && results[i].success ==>
          results[i].output.Some? && results[i].archive.Some?
          && Path(layout.outputDir, results[i].output.value) in fs
          && Path(layout.archiveDir, results[i].archive.value) in fs)
    && (forall i, j :: 0 <= i < j < |results| && results[i].success && results[j].success ==>
          results[i].output != results[j].output && results[i].archive != results[j].archive)
    && (forall q :: q in fs0 && q.dir != layout.inputDir ==> q in fs)
    && (forall q :: q in fs && q !in fs0 ==> q.dir == layout.outputDir || q.dir == layout.archiveDir)
  }

  /** One more file processed keeps `Processed`. */
  lemma ProcessedExtends(layout: Layout, fs0: FileSystem, files: seq<Path>,
                         verdicts: seq<bool>, results: seq<ConversionResult>, fs: FileSystem,
                         res: ConversionResult, next: FileSystem)
    requires Processed(layout, fs0, files, verdicts, results, fs)
    requires |results| < |files|
    requires res.filename == files[|results|].name && WellFormed(res)
    requires res.success == verdicts[|results|]
    requires res.success ==>
               && Path(layout.outputDir, res.output.value) !in fs
               && Path(layout.outputDir, res.output.value) in next
               && Path(layout.archiveDir, res.archive.value) !in fs
               && Path(layout.archiveDir, res.archive.value) in next
    requires forall q :: q in fs && q.dir != layout.inputDir ==> q in next
    requires forall q :: q in next && q !in fs ==> q.dir == layout.outputDir || q.dir == layout.archiveDir
    requires layout.Valid()
    ensures Processed(layout, fs0, files, verdicts, results + [res], next)
  {
  }

  /**
   Processes `files` in order, `oracles[i]` describing file `i`. There is one
   well-formed result per file, in order; each file succeeds or fails on its
   own, whatever happened to the others. Successful files get distinct output
   and distinct archive names, and those files are all present at the end.
   Nothing outside the input directory is removed, and new files appear only
   in the output and archive directories.
   */
  method ProcessAll(layout: Layout, caps: Capabilities, fs: FileSystem, files: seq<Path>, oracles: seq<FileOracle>)
    returns (results: seq<ConversionResult>, fs': FileSystem)
    requires layout.Valid()
    requires |oracles| == |files|
    requires forall i :: 0 <= i < |files| ==> files[i].dir == layout.inputDir
    ensures |results| == |files|
    ensures forall i :: 0 <= i < |files| ==> results[i].filename == files[i].name && WellFormed(results[i])
    ensures forall i :: 0 <= i < |files| ==> (results[i].success <==> Succeeds(caps, files[i].name, oracles[i]))
    ensures forall i :: 0 <= i < |files| && results[i].success ==>
              results[i].output.Some? && results[i].archive.Some?
              && Path(layout.outputDir, results[i].output.value) in fs'
              && Path(layout.archiveDir, results[i].archive.value) in fs'
    ensures forall i, j :: 0 <= i < j < |files| && results[i].success && results[j].success ==>
              results[i].output != results[j].output && results[i].archive != results[j].archive
    ensures forall q :: q in fs && q.dir != layout.inputDir ==> q in fs'
    ensures forall q :: q in fs' && q !in fs ==> q.dir == layout.outputDir || q.dir == layout.archiveDir
  {
    ghost var verdicts := seq(|files|, i requires 0 <= i < |files| => Succeeds(caps, files[i].name, oracles[i]));
    results := [];
    fs' := fs;
    for k := 0 to |files|
      invariant |results| == k
      invariant Processed(layout, fs, files, verdicts, results, fs')
    {
      var res, next, _ := ProcessFile(layout, caps, fs', files[k], oracles[k]);
      ProcessedExtends(layout, fs, files, verdicts, results, fs', res, next);
      fs' := next;
      results := results + [res];
    }
  }

  predicate Succeeded(r: ConversionResult)
  {
    r.success
  }

  /** One line of the failure list: the file and its recorded error. */
  datatype FailureLine = FailureLine(filename: string, error: Option<string>)

  function ToFailureLine(r: ConversionResult): FailureLine
  {
    FailureLine(r.filename, r.error)
  }

  datatype Summary = Summary(total: nat, successful: nat, failed: nat, failures: seq<FailureLine>)

  /**
   The numbers and the failure list `print_summary` shows: the count of
   results, the count of successes, the rest as failures, and the failed
   files with their errors.
   */
  function Summarize(results: seq<ConversionResult>): (s: Summary)
    ensures s.total == |results|
    ensures s.successful + s.failed == s.total
    ensures (forall i :: 0 <= i < |results| ==> results[i].success) ==> s.failed == 0
  {
    var successful := Seqs.Count(Succeeded, results);
    Seqs.CountComplement(Succeeded, results);
    var failedOnes := Seqs.Filter(Seqs.Not(Succeeded), results);
    AllSucceeded(results);
    Summary(|results|, successful, |results| - successful, Seqs.Map(ToFailureLine, failedOnes))
  }

  lemma {:induction false} AllSucceeded(results: seq<ConversionResult>)
    ensures (forall i :: 0 <= i < |results| ==> results[i].success) ==> Seqs.Count(Succeeded, results) == |results|
  {
    if results != [] {
      AllSucceeded(results[..|results| - 1]);
    }
  }

  /**
   The failure list has exactly `failed` lines: the k-th line is the k-th
   failed result (by the positions `Selected` returns), with its name and
   error, so the list follows processing order and leaves no failure out.
   */
  lemma SummaryFailures(results: seq<ConversionResult>)
    ensures var s := Summarize(results);
            var ix := Seqs.Selected(Seqs.Not(Succeeded), results);
            && |s.failures| == s.failed == |ix|
            && forall k :: 0 <= k < |ix| ==>
                 !results[ix[k]].success
                 && s.failures[k] == FailureLine(results[ix[k]].filename, results[ix[k]].error)
  {
    Seqs.FilterIsSelection(Seqs.Not(Succeeded), results);
    FailureCount(results);
    FailureLines(results);
  }

  /** The failure list, the failed count and the failed positions have one length. */
  lemma FailureCount(results: seq<ConversionResult>)
    ensures var s := Summarize(results);
            |s.failures| == s.failed == |Seqs.Selected(Seqs.Not(Succeeded), results)|
  {
    Seqs.FilterIsSelection(Seqs.Not(Succeeded), results);
    Seqs.CountComplement(Succeeded, results);
  }

  /** The k-th failure line describes the k-th failed result. */
  lemma FailureLines(results: seq<ConversionResult>)
    ensures var s := Summarize(results);
            var ix := Seqs.Selected(Seqs.Not(Succeeded), results);
            forall k :: 0 <= k < |ix| ==>
              && k < |s.failures|
              && !results[ix[k]].success
              && s.failures[k] == FailureLine(results[ix[k]].filename, results[ix[k]].error)
  {
    var failedOnes := Seqs.Filter(Seqs.Not(Succeeded), results);
    var ix := Seqs.Selected(Seqs.Not(Succeeded), results);
    var lines := Seqs.Map(ToFailureLine, failedOnes);
    assert Summarize(results).failures == lines;
    Seqs.FilterIsSelection(Seqs.Not(Succeeded), results);
    assert |lines| == |ix|;
    forall k | 0 <= k < |ix|
      ensures !results[ix[k]].success
      ensures lines[k] == FailureLine(results[ix[k]].filename, results[ix[k]].error)
    {
      var r := results[ix[k]];
      assert failedOnes[k] == r;
      assert Seqs.Not(Succeeded)(r);
      assert lines[k] == ToFailureLine(r);
    }
  }

  /**
   One run of `main`: discover the drawings of the input directory, process
   them in discovery order, and summarize. With nothing discovered the run
   stops before processing and there is no summary.
   */
  method Run(layout: Layout, caps: Capabilities, fs: FileSystem, listing: seq<Discovery.Entry>, oracles: seq<FileOracle>)
    returns (summary: Option<Summary>, results: seq<ConversionResult>, fs': FileSystem)
    requires layout.Valid()
    requires |oracles| == |Discovery.GetVisioFiles(layout.inputDir, listing)|
    ensures var files := Discovery.GetVisioFiles(layout.inputDir, listing);
            && |results| == |files|
            && (forall i :: 0 <= i < |files| ==> results[i].filename == files[i].name && WellFormed(results[i]))
            && (summary.None? <==> files == [])
            && (forall i :: 0 <= i < |files| ==> (results[i].success <==> Succeeds(caps, files[i].name, oracles[i])))
            && (summary.Some? ==> summary.value == Summarize(results))
            && (summary.Some? ==> summary.value.total == |files|
                                  && summary.value.successful + summary.value.failed == |files|)
            && (forall i :: 0 <= i < |files| && results[i].success ==>
                  results[i].output.Some? && results[i].archive.Some?
                  && Path(layout.outputDir, results[i].output.value) in fs'
                  && Path(layout.archiveDir, results[i].archive.value) in fs')
            && (forall i, j :: 0 <= i < j < |files| && results[i].success && results[j].success ==>
                  results[i].output != results[j].output && results[i].archive != results[j].archive)
    ensures forall q :: q in fs && q.dir != layout.inputDir ==> q in fs'
    ensures forall q :: q in fs' && q !in fs ==> q.dir == layout.outputDir || q.dir == layout.archiveDir
  {
    var files := Discovery.GetVisioFiles(layout.inputDir, listing);
    if files == [] {
      return None, [], fs;
    }
    results, fs' := ProcessAll(layout, caps, fs, files, oracles);
    summary := Some(Summarize(results));
  }

  /**
   A discovered file always reaches one of the two backend families: the
   dispatcher's "unsupported extension" case cannot happen after discovery,
   and with both capabilities present some backend is always started.
   */
  lemma DiscoveredFilesAreRouted(dir: string, listing: seq<Discovery.Entry>, caps: Capabilities, oracle: FileOracle)
    ensures forall q :: q in Discovery.GetVisioFiles(dir, listing) ==>
              ExtensionOf(q.name) in NativeExtensions || ExtensionOf(q.name) in ExternalExtensions
    ensures caps.vsdxSupport && caps.vsdSupport ==>
              forall q :: q in Discovery.GetVisioFiles(dir, listing) ==> Dispatch(caps, q.name, oracle).calls != []
  {
    forall q | q in Discovery.GetVisioFiles(dir, listing)
      ensures ExtensionOf(q.name) in NativeExtensions || ExtensionOf(q.name) in ExternalExtensions
    {
      LowerSplitExt(q.name);
      assert Discovery.IsVisioEntry(Discovery.Entry(q.name, true));
    }
  }
}

=== FILE: builder.dfy ===
/**
 The native builder (`convert_vsdx_to_vdx`): a structural VDX document built
 from what the parsing library exposes of a drawing. The library itself is not
 modelled; its view of a drawing is the `SourceDrawing` value.
 */
module Builder {
  import opened Options
  import opened Decimal

  /**
   A shape as the library exposes it. `name` is `None` when the library gives
   none; a coordinate or dimension is `None` when the shape lacks that attribute.
   */
  datatype SourceShape = SourceShape(
    name: Option<string>,
    x: Option<real>, y: Option<real>,
    width: Option<real>, height: Option<real>)

  datatype SourcePage = SourcePage(name: string, width: real, height: real, shapes: seq<SourceShape>)

  datatype SourceDrawing = SourceDrawing(pages: seq<SourcePage>)

  const VisioNamespace: string := "http://schemas.microsoft.com/visio/2003/core"
  const CreatorName: string := "VDXConvert"

  /** The emitted element tree, one datatype per element kind. */
  datatype VisioDocument = VisioDocument(xmlns: string, properties: DocumentProperties, pages: seq<Page>)

  datatype DocumentProperties = DocumentProperties(title: string, creator: string)

  datatype Page = Page(id: nat, name: string, properties: PageProperties, shapes: seq<Shape>)

  datatype PageProperties = PageProperties(pageWidth: real, pageHeight: real)

  datatype Shape = Shape(id: nat, name: string, properties: ShapeProperties)

  /** `PosX`/`PosY` come as a pair, and so do `Width`/`Height`. */
  datatype ShapeProperties = ShapeProperties(position: Option<Position>, size: Option<Size>)

  datatype Position = Position(posX: real, posY: real)

  datatype Size = Size(width: real, height: real)

  /** Python truthiness of the shape's name: absent and empty both count as missing. */
  predicate HasName(name: Option<string>)
  {
    name.Some? && name.value != ""
  }

  /** The name written for the shape at 1-based position `j`. */
  function ShapeName(j: nat, name: Option<string>): string
  {
    if HasName(name) then name.value else "Shape_" + NatToString(j)
  }

  function BuildShape(j: nat, s: SourceShape): Shape
  {
    Shape(j, ShapeName(j, s.name), ShapeProperties(
      if s.x.Some? && s.y.Some? then Some(Position(s.x.value, s.y.value)) else None,
      if s.width.Some? && s.height.Some? then Some(Size(s.width.value, s.height.value)) else None))
  }

  function BuildPage(i: nat, p: SourcePage): Page
  {
    Page(i, p.name, PageProperties(p.width, p.height),
         seq(|p.shapes|, j requires 0 <= j < |p.shapes| => BuildShape(j + 1, p.shapes[j])))
  }

  /**
   The document for a drawing read from the file named `title`. Its
   properties carry the title and the tool's name. There is one page per
   source page, numbered from 1 in order, with the source's name and size;
   each page holds one shape per source shape, numbered from 1 again. A shape
   keeps its name, or is called `Shape_<j>` when it has none; it has a position
   exactly when the source gives both coordinates, and a size exactly when the
   source gives both dimensions.
   */
  function BuildDocument(title: string, d: SourceDrawing): (doc: VisioDocument)
    ensures doc.xmlns == VisioNamespace
    ensures doc.properties == DocumentProperties(title, CreatorName)
    ensures |doc.pages| == |d.pages|
    ensures forall i :: 0 <= i < |d.pages| ==>
              var pg := doc.pages[i];
              && pg.id == i + 1
              && pg.name == d.pages[i].name
              && pg.properties == PageProperties(d.pages[i].width, d.pages[i].height)
              && |pg.shapes| == |d.pages[i].shapes|
    ensures forall i, j :: 0 <= i < |d.pages| && 0 <= j < |d.pages[i].shapes| ==>
              var sh := doc.pages[i].shapes[j];
              var src := d.pages[i].shapes[j];
              && sh.id == j + 1
              && sh.name != ""
              && (HasName(src.name) ==> sh.name == src.name.value)
              && (!HasName(src.name) ==> sh.name == "Shape_" + NatToString(j + 1))
              && (sh.properties.position.Some? <==> src.x.Some? && src.y.Some?)
              && (sh.properties.position.Some? ==>
                    sh.properties.position.value == Position(src.x.value, src.y.value))
              && (sh.properties.size.Some? <==> src.width.Some? && src.height.Some?)
              && (sh.properties.size.Some? ==>
                    sh.properties.size.value == Size(src.width.value, src.height.value))
  {
    VisioDocument(VisioNamespace, DocumentProperties(title, CreatorName),
                  seq(|d.pages|, i requires 0 <= i < |d.pages| => BuildPage(i + 1, d.pages[i])))
  }

  /**
   What the document keeps of a shape: the name as written (fallback
   included) and only complete coordinate and dimension pairs.
   */
  function NormalizeShape(j: nat, s: SourceShape): SourceShape
  {
    SourceShape(
      Some(ShapeName(j, s.name)),
      if s.x.Some? && s.y.Some? then s.x else None,
      if s.x.Some? && s.y.Some? then s.y else None,
      if s.width.Some? && s.height.Some? then s.width else None,
      if s.width.Some? && s.height.Some? then s.height else None)
  }

  function NormalizePage(p: SourcePage): SourcePage
  {
    p.(shapes := seq(|p.shapes|, j requires 0 <= j < |p.shapes| => NormalizeShape(j + 1, p.shapes[j])))
  }

  /** A drawing reduced to what the document keeps of it. */
  function Normalize(d: SourceDrawing): SourceDrawing
  {
    SourceDrawing(seq(|d.pages|, i requires 0 <= i < |d.pages| => NormalizePage(d.pages[i])))
  }

  /** Reads a drawing back out of a document, ignoring the numbering. */
  function ExtractShape(s: Shape): SourceShape
  {
    var pos := s.properties.position;
    var size := s.properties.size;
    SourceShape(
      Some(s.name),
      if pos.Some? then Some(pos.value.posX) else None,
      if pos.Some? then Some(pos.value.posY) else None,
      if size.Some? then Some(size.value.width) else None,
      if size.Some? then Some(size.value.height) else None)
  }

  function ExtractPage(p: Page): SourcePage
  {
    SourcePage(p.name, p.properties.pageWidth, p.properties.pageHeight,
               seq(|p.shapes|, j requires 0 <= j < |p.shapes| => ExtractShape(p.shapes[j])))
  }

  function Extract(doc: VisioDocument): SourceDrawing
  {
    SourceDrawing(seq(|doc.pages|, i requires 0 <= i < |doc.pages| => ExtractPage(doc.pages[i])))
  }

  /** Reading a built document back gives the normalized drawing. */
  lemma ExtractBuild(title: string, d: SourceDrawing)
    ensures Extract(BuildDocument(title, d)) == Normalize(d)
  {
    var doc := BuildDocument(title, d);
    forall i | 0 <= i < |d.pages|
      ensures ExtractPage(doc.pages[i]) == NormalizePage(d.pages[i])
    {
      var p := d.pages[i];
      forall j | 0 <= j < |p.shapes|
        ensures ExtractShape(doc.pages[i].shapes[j]) == NormalizeShape(j + 1, p.shapes[j])
      {
      }
    }
  }

  /** A normalized drawing builds the same document as the original. */
  lemma BuildNormalize(title: string, d: SourceDrawing)
    ensures BuildDocument(title, Normalize(d)) == BuildDocument(title, d)
  {
    var n := Normalize(d);
    forall i | 0 <= i < |d.pages|
      ensures BuildPage(i + 1, n.pages[i]) == BuildPage(i + 1, d.pages[i])
    {
      NormalizedPageBuilds(i + 1, d.pages[i]);
    }
  }

  /** A page builds the same with its shapes normalized. */
  lemma NormalizedPageBuilds(i: nat, p: SourcePage)
    ensures BuildPage(i, NormalizePage(p)) == BuildPage(i, p)
  {
    var q := NormalizePage(p);
    forall j | 0 <= j < |p.shapes|
      ensures BuildShape(j + 1, q.shapes[j]) == BuildShape(j + 1, p.shapes[j])
    {
      NormalizedShapeBuilds(j + 1, p.shapes[j]);
    }
  }

  /** A normalized shape builds the same: its name is already the one the tree shows. */
  lemma NormalizedShapeBuilds(j: nat, s: SourceShape)
    ensures BuildShape(j, NormalizeShape(j, s)) == BuildShape(j, s)
  {
    assert ShapeName(j, s.name) != "";
  }

  /**
   The conversion loses exactly what `Normalize` drops: two drawings give the
   same document if and only if they agree once normalized.
   */
  lemma BuildLosesOnlyNormalization(title: string, d1: SourceDrawing, d2: SourceDrawing)
    ensures BuildDocument(title, d1) == BuildDocument(title, d2) <==> Normalize(d1) == Normalize(d2)
  {
    ExtractBuild(title, d1);
    ExtractBuild(title, d2);
    BuildNormalize(title, d1);
    BuildNormalize(title, d2);
  }

  /**
   `convert_vsdx_to_vdx` once the library is present: `drawing` is `None`
   when the library raised while reading the file, and `written` says whether
   writing the tree succeeded. The conversion reports success exactly when
   both held, and then the document written is the one built from the drawing
   under the input's base name.
   */
  function ConvertVsdxToVdx(title: string, drawing: Option<SourceDrawing>, written: bool): (r: Option<VisioDocument>)
    ensures r.Some? <==> drawing.Some? && written
    ensures r.Some? ==> r.value == BuildDocument(title, drawing.value)
    ensures r.Some? ==> r.value.properties.title == title && Extract(r.value) == Normalize(drawing.value)
  {
    if drawing.Some? && written then
      ExtractBuild(title, drawing.value);
      Some(BuildDocument(title, drawing.value))
    else None
  }
}

=== FILE: decimal.dfy ===
/** Python's `str(n)` for a natural number: its decimal digits, no sign, no leading zeros. */
module Decimal {

  function DigitChar(d: nat): (c: char)
    requires d < 10
    ensures '0' <= c <= '9'
  {
    "0123456789"[d]
  }

  function DigitValue(c: char): (d: nat)
    requires '0' <= c <= '9'
    ensures d < 10
  {
    c as int - '0' as int
  }

  predicate AllDigits(s: string)
  {
    forall i :: 0 <= i < |s| ==> '0' <= s[i] <= '9'
  }

  /** The decimal rendering of `n`. */
  function NatToString(n: nat): (s: string)
    ensures |s| >= 1 && AllDigits(s)
    ensures n >= 10 ==> |s| >= 2
    ensures n >= 1 ==> s[0] != '0'
    decreases n
  {
    if n < 10 then [DigitChar(n)]
    else NatToString(n / 10) + [DigitChar(n % 10)]
  }

  /** Reads a non-empty string of digits back as a number. */
  function Parse(s: string): nat
    requires |s| >= 1 && AllDigits(s)
  {
    if |s| == 1 then DigitValue(s[0])
    else Parse(s[..|s| - 1]) * 10 + DigitValue(s[|s| - 1])
  }

  lemma DigitRoundTrip(d: nat)
    requires d < 10
    ensures DigitValue(DigitChar(d)) == d
  {
  }

  /** Reading back the rendering of `n` gives `n`. */
  lemma {:induction false} ParseNatToString(n: nat)
    ensures Parse(NatToString(n)) == n
    decreases n
  {
    if n < 10 {
      DigitRoundTrip(n);
    } else {
      var s := NatToString(n);
      assert s[..|s| - 1] == NatToString(n / 10);
      ParseNatToString(n / 10);
      DigitRoundTrip(n % 10);
    }
  }

  /** Distinct numbers render to distinct strings. */
  lemma NatToStringInjective(a: nat, b: nat)
    ensures NatToString(a) == NatToString(b) ==> a == b
  {
    ParseNatToString(a);
    ParseNatToString(b);
  }
}

=== FILE: discovery.dfy ===
/** Discovery (`get_visio_files`): the Visio drawings among a directory's entries. */
module Discovery {
  import opened PathNames
  import Seqs

  /** The extensions the converter accepts, in lower case. */
  const SupportedExtensions: seq<string> := [".vsd", ".vsdx", ".vsdm", ".vdw"]

  /** One directory entry as `os.listdir` names it, with what `os.path.isfile` says of it. */
  datatype Entry = Entry(name: string, isFile: bool)

  /** A regular file whose lower-cased name splits off a supported extension. */
  predicate IsVisioEntry(e: Entry)
  {
    e.isFile && SplitExt(Lower(e.name)).ext in SupportedExtensions
  }

  /** The path `os.path.join(dir, name)` of an entry. */
  function EntryPath(dir: string): Entry -> Path
  {
    (e: Entry) => Path(dir, e.name)
  }

  /**
   The drawings of directory `dir` whose listing is `listing`: every path
   returned lies in `dir` and names a Visio entry of the listing, and every
   Visio entry of the listing is returned.
   */
  function GetVisioFiles(dir: string, listing: seq<Entry>): (r: seq<Path>)
    ensures |r| <= |listing|
    ensures forall k :: 0 <= k < |r| ==> r[k].dir == dir && Entry(r[k].name, true) in listing
                                         && IsVisioEntry(Entry(r[k].name, true))
    ensures forall i :: 0 <= i < |listing| && IsVisioEntry(listing[i]) ==> Path(dir, listing[i].name) in r
  {
    var kept := Seqs.Filter(IsVisioEntry, listing);
    var r := Seqs.Map(EntryPath(dir), kept);
    assert forall i :: 0 <= i < |listing| && IsVisioEntry(listing[i]) ==> Path(dir, listing[i].name) in r by {
      forall i | 0 <= i < |listing| && IsVisioEntry(listing[i])
        ensures Path(dir, listing[i].name) in r
      {
        var k :| 0 <= k < |kept| && kept[k] == listing[i];
        assert r[k] == Path(dir, listing[i].name);
      }
    }
    r
  }

  /**
   Discovery keeps listing order: the k-th path returned is the k-th Visio
   entry of the listing, where the Visio entries sit at strictly increasing
   positions and every Visio entry has one.
   */
  lemma DiscoveryIsOrderedSelection(dir: string, listing: seq<Entry>)
    ensures var r := GetVisioFiles(dir, listing);
            var ix := Seqs.Selected(IsVisioEntry, listing);
            && |r| == |ix|
            && (forall k :: 0 <= k < |r| ==> r[k] == Path(dir, listing[ix[k]].name))
            && (forall k, l :: 0 <= k < l < |ix| ==> ix[k] < ix[l])
            && (forall i :: 0 <= i < |listing| ==> (IsVisioEntry(listing[i]) <==> i in ix))
  {
    Seqs.FilterIsSelection(IsVisioEntry, listing);
  }

  /**
   The filter in terms of names: an entry is kept if and only if it is a
   regular file whose lower-cased name ends with one of the supported
   extensions after a final component that is not all dots (so `.vsd` or
   `..vsd` alone is not a drawing).
   */
  lemma VisioEntryBySuffix(e: Entry)
    ensures IsVisioEntry(e) <==>
              e.isFile && exists x :: x in SupportedExtensions && HasExtension(Lower(e.name), x)
  {
    var s := Lower(e.name);
    var ext := SplitExt(s).ext;
    SupportedAreValid();
    if ext in SupportedExtensions {
      SplitExtSuffix(s, ext);
      assert HasExtension(s, ext);
    }
    forall x | x in SupportedExtensions && HasExtension(s, x)
      ensures ext in SupportedExtensions
    {
      SplitExtSuffix(s, x);
    }
  }

  lemma SupportedAreValid()
    ensures forall x :: x in SupportedExtensions ==> ValidExt(x)
  {
    assert ValidExt(".vsd") && ValidExt(".vsdx") && ValidExt(".vsdm") && ValidExt(".vdw");
  }
}

=== FILE: options.dfy ===
/** The optional value used for Python's `None`-able fields and attributes. */
module Options {

  datatype Option<+T> = None | Some(value: T)
}

=== FILE: pathnames.dfy ===
/**
 File names and the two pieces of Python's path library the program relies on:
 `os.path.splitext` (POSIX flavour) and `str.lower`.
 */
module PathNames {

  /** A path as the program builds it with `os.path.join(directory, name)`. */
  datatype Path = Path(dir: string, name: string)

  /** The parts `os.path.splitext` returns: `root + ext` is the original string. */
  datatype Split = Split(root: string, ext: string)

  /** Position of the last `c` in `s`, or -1 (Python's `str.rfind`). */
  function LastIndexOf(s: string, c: char): (r: int)
    ensures -1 <= r < |s|
    ensures r >= 0 ==> s[r] == c
    ensures forall i :: r < i < |s| ==> s[i] != c
  {
    if |s| == 0 then -1
    else if s[|s| - 1] == c then |s| - 1
    else LastIndexOf(s[..|s| - 1], c)
  }

  predicate AllDots(s: string)
  {
    forall i :: 0 <= i < |s| ==> s[i] == '.'
  }

  /** What follows the last `/` of `s`. */
  function FinalComponent(s: string): string
  {
    s[LastIndexOf(s, '/') + 1..]
  }

  /**
   `os.path.splitext`: the extension runs from the last dot to the end, provided
   that dot lies in the final component and is preceded there by something other
   than dots; otherwise the extension is empty.
   */
  function SplitExt(s: string): (r: Split)
    ensures r.root + r.ext == s
    ensures r.ext == [] || ValidExt(r.ext)
  {
    var sep := LastIndexOf(s, '/');
    var dot := LastIndexOf(s, '.');
    if dot > sep && !AllDots(s[sep + 1..dot]) then
      TailFromLastDot(s);
      Split(s[..dot], s[dot..])
    else Split(s, [])
  }

  /** From a last dot that follows the last slash, the rest of the name is a valid extension. */
  lemma TailFromLastDot(s: string)
    requires LastIndexOf(s, '.') > LastIndexOf(s, '/')
    ensures s[..LastIndexOf(s, '.')] + s[LastIndexOf(s, '.')..] == s
    ensures ValidExt(s[LastIndexOf(s, '.')..])
  {
    var sep := LastIndexOf(s, '/');
    var dot := LastIndexOf(s, '.');
    var x := s[dot..];
    assert s[..dot] + x == s;
    forall i | 1 <= i < |x|
      ensures x[i] != '.' && x[i] != '/'
    {
      assert x[i] == s[dot + i];
    }
  }

  /** An extension as `SplitExt` can return it: one leading dot, no other dot or slash. */
  predicate ValidExt(x: string)
  {
    && |x| >= 1
    && x[0] == '.'
    && forall i :: 1 <= i < |x| ==> x[i] != '.' && x[i] != '/'
  }

  /**
   `s` carries extension `x`: it ends with `x`, and the final component of
   what comes before is not made of dots alone.
   */
  predicate HasExtension(s: string, x: string)
  {
    && |s| >= |x|
    && s[|s| - |x|..] == x
    && !AllDots(FinalComponent(s[..|s| - |x|]))
  }

  /** ASCII case folding of one character. */
  function LowerChar(c: char): char
  {
    if 'A' <= c <= 'Z' then (c as int + 32) as char else c
  }

  /** `str.lower` on ASCII text. */
  function Lower(s: string): (r: string)
    ensures |r| == |s|
    ensures forall i :: 0 <= i < |s| ==> r[i] == LowerChar(s[i])
  {
    seq(|s|, i requires 0 <= i < |s| => LowerChar(s[i]))
  }

  /** The last occurrence is the one position with `c` and no `c` after it. */
  lemma LastIndexOfUnique(s: string, c: char, k: int)
    requires -1 <= k < |s|
    requires k >= 0 ==> s[k] == c
    requires forall i :: k < i < |s| ==> s[i] != c
    ensures LastIndexOf(s, c) == k
  {
  }

  /** Cutting off a tail that holds no `c` keeps the last `c` where it was. */
  lemma LastIndexOfPrefix(s: string, c: char, d: int)
    requires 0 <= d <= |s|
    requires forall i :: d <= i < |s| ==> s[i] != c
    ensures LastIndexOf(s[..d], c) == LastIndexOf(s, c)
  {
    LastIndexOfUnique(s[..d], c, LastIndexOf(s, c));
  }

  /**
   The extension `SplitExt` finds is exactly the suffix `HasExtension`
   describes: a name has extension `x` if and only if it ends with `x` after
   a final component that is not all dots.
   */
  lemma SplitExtSuffix(s: string, x: string)
    requires ValidExt(x)
    ensures SplitExt(s).ext == x <==> HasExtension(s, x)
  {
    if SplitExt(s).ext == x {
      SplitExtRootFinal(s);
    }
    if HasExtension(s, x) {
      SuffixSplits(s, x);
    }
  }

  /** A name with an extension keeps a final component that is not all dots in its root. */
  lemma SplitExtRootFinal(s: string)
    ensures SplitExt(s).ext != [] ==> !AllDots(FinalComponent(SplitExt(s).root))
  {
    var sep := LastIndexOf(s, '/');
    var dot := LastIndexOf(s, '.');
    if dot > sep && !AllDots(s[sep + 1..dot]) {
      var root := s[..dot];
      assert SplitExt(s).root == root;
      LastIndexOfPrefix(s, '/', dot);
      assert LastIndexOf(root, '/') == sep;
      assert FinalComponent(root) == root[sep + 1..];
      assert root[sep + 1..] == s[sep + 1..dot];
    }
  }

  /** A name ending in `x` after a final component that is not all dots splits at `x`. */
  lemma SuffixSplits(s: string, x: string)
    requires ValidExt(x)
    requires HasExtension(s, x)
    ensures SplitExt(s) == Split(s[..|s| - |x|], x)
  {
    var d := |s| - |x|;
    assert s[d..] == x;
    forall i | d < i < |s|
      ensures s[i] != '.' && s[i] != '/'
    {
      assert s[i] == s[d..][i - d];
    }
    assert s[d] == '.' by {
      assert s[d] == s[d..][0];
    }
    LastIndexOfUnique(s, '.', d);
    var dot := LastIndexOf(s, '.');
    assert dot == d;
    LastIndexOfPrefix(s, '/', d);
    var sep := LastIndexOf(s, '/');
    assert sep == LastIndexOf(s[..d], '/');
    assert sep < d;
    assert s[sep + 1..d] == s[..d][sep + 1..];
    assert s[sep + 1..d] == FinalComponent(s[..d]);
    assert !AllDots(s[sep + 1..dot]);
  }

  /**
   Lower-casing a name and then splitting it (as discovery does) gives the
   same extension as splitting first and lower-casing the extension (as the
   dispatcher does).
   */
  lemma LowerSplitExt(s: string)
    ensures SplitExt(Lower(s)) == Split(Lower(SplitExt(s).root), Lower(SplitExt(s).ext))
  {
    var sep := LastIndexOf(s, '/');
    var dot := LastIndexOf(s, '.');
    LowerKeepsSeparators(s);
    if dot > sep && !AllDots(s[sep + 1..dot]) {
      LowerSplitAt(s, sep, dot);
    } else {
      LowerNoSplit(s, sep, dot);
    }
  }

  lemma LowerKeepsSeparators(s: string)
    ensures LastIndexOf(Lower(s), '/') == LastIndexOf(s, '/')
    ensures LastIndexOf(Lower(s), '.') == LastIndexOf(s, '.')
  {
    LastIndexOfUnique(Lower(s), '/', LastIndexOf(s, '/'));
    LastIndexOfUnique(Lower(s), '.', LastIndexOf(s, '.'));
  }

  lemma LowerNoSplit(s: string, sep: int, dot: int)
    requires sep == LastIndexOf(s, '/') && dot == LastIndexOf(s, '.')
    requires sep == LastIndexOf(Lower(s), '/') && dot == LastIndexOf(Lower(s), '.')
    requires !(dot > sep && !AllDots(s[sep + 1..dot]))
    ensures SplitExt(s) == Split(s, [])
    ensures SplitExt(Lower(s)) == Split(Lower(s), [])
  {
    if dot > sep {
      LowerSlice(s, sep + 1, dot);
      AllDotsLower(s[sep + 1..dot]);
    }
  }

  lemma LowerSplitAt(s: string, sep: int, dot: int)
    requires sep == LastIndexOf(s, '/') && dot == LastIndexOf(s, '.')
    requires sep == LastIndexOf(Lower(s), '/') && dot == LastIndexOf(Lower(s), '.')
    requires dot > sep && !AllDots(s[sep + 1..dot])
    ensures SplitExt(Lower(s)) == Split(Lower(s[..dot]), Lower(s[dot..]))
  {
    var t := Lower(s);
    LowerSlice(s, sep + 1, dot);
    AllDotsLower(s[sep + 1..dot]);
    assert !AllDots(t[sep + 1..dot]);
    assert SplitExt(t) == Split(t[..dot], t[dot..]);
    LowerPrefix(s, dot);
    LowerSuffix(s, dot);
  }

  lemma LowerPrefix(s: string, d: int)
    requires 0 <= d <= |s|
    ensures Lower(s)[..d] == Lower(s[..d])
  {
  }

  lemma LowerSuffix(s: string, d: int)
    requires 0 <= d <= |s|
    ensures Lower(s)[d..] == Lower(s[d..])
  {
  }

  lemma LowerSlice(s: string, a: int, b: int)
    requires 0 <= a <= b <= |s|
    ensures Lower(s)[a..b] == Lower(s[a..b])
  {
  }

  lemma AllDotsLower(u: string)
    ensures AllDots(Lower(u)) <==> AllDots(u)
  {
    if !AllDots(u) {
      var i :| 0 <= i < |u| && u[i] != '.';
      assert Lower(u)[i] != '.';
    }
    if !AllDots(Lower(u)) {
      var i :| 0 <= i < |u| && Lower(u)[i] != '.';
      assert u[i] != '.';
    }
  }


  /**
   Swapping a file's extension for another valid one gives a name whose
   split is the old root with the new extension.
   */
  lemma ReplaceExt(s: string, x: string)
    requires ValidExt(x)
    ensures SplitExt(s).ext != [] ==> SplitExt(SplitExt(s).root + x) == Split(SplitExt(s).root, x)
  {
    if SplitExt(s).ext != [] {
      var root := SplitExt(s).root;
      SplitExtRootFinal(s);
      assert (root + x)[..|root|] == root;
      assert (root + x)[|root|..] == x;
      SuffixSplits(root + x, x);
    }
  }

  /** Lower-casing keeps a valid extension valid: it never makes or removes a dot or a slash. */
  lemma LowerValidExt(x: string)
    requires ValidExt(x)
    ensures ValidExt(Lower(x))
  {
    var t := Lower(x);
    forall i | 1 <= i < |t|
      ensures t[i] != '.' && t[i] != '/'
    {
      assert t[i] == LowerChar(x[i]);
    }
  }

  /** No upper-case ASCII letter survives `Lower`. */
  lemma LowerHasNoUpper(s: string)
    ensures forall i :: 0 <= i < |Lower(s)| ==> !('A' <= Lower(s)[i] <= 'Z')
  {
  }
}

=== FILE: pipeline.dfy ===
/**
 The per-file pipeline (`process_file`), the batch loop of `main` and the
 counting of `print_summary`.
 */
module Pipeline {
  import opened Options
  import opened PathNames
  import opened UniqueName
  import Seqs
  import Builder
  import opened Backends

  /** Extensions handled by the parsing library. */
  const NativeExtensions: seq<string> := [".vsdx", ".vsdm"]
  /** Extensions handled by the external converters. */
  const ExternalExtensions: seq<string> := [".vsd", ".vdw"]

  /** No extension is handled by both routes. */
  lemma ExtensionRoutesDisjoint(x: string)
    ensures !(x in NativeExtensions && x in ExternalExtensions)
  {
    if x in NativeExtensions {
      assert |x| == 5;
    }
  }

  const ConversionFailedMessage: string := "Conversion process failed"

  /** The outcome of the dependency probe: library present, some external converter reachable. */
  datatype Capabilities = Capabilities(vsdxSupport: bool, vsdSupport: bool)

  /** Where inputs are read from and outputs and originals are put. */
  datatype Layout = Layout(inputDir: string, outputDir: string, archiveDir: string)
  {
    /** The three directories are distinct, as the program's constants are. */
    predicate Valid()
    {
      inputDir != outputDir && inputDir != archiveDir && outputDir != archiveDir
    }
  }

  /** How the move of the original into the archive ended. */
  datatype MoveOutcome = Moved | MoveRaised(message: string)

  /**
   Everything about one file that the model does not compute: what the
   parsing library reads (`None` if it raises), whether writing the document
   succeeds, how each external attempt ends, and how the archive move ends.
   */
  datatype FileOracle = FileOracle(
    drawing: Option<Builder.SourceDrawing>,
    written: bool,
    unoconv: Attempt,
    soffice: Attempt,
    move: MoveOutcome)

  /** A backend the dispatcher started. */
  datatype Call = CallBuilder | CallExternal(tool: Tool)

  /**
   The conversion step's outcome: whether it succeeded, the backends it
   started, and the document the builder wrote (the external chain's output
   is copied as the converter produced it, so it has no tree here).
   */
  datatype Dispatched = Dispatched(converted: bool, calls: seq<Call>, document: Option<Builder.VisioDocument>)

  /** The record kept for one file; processing time is not modelled. */
  datatype ConversionResult = ConversionResult(
    filename: string,
    output: Option<string>,
    archive: Option<string>,
    success: bool,
    error: Option<string>)

  /** Output and archive are set exactly on success, the error exactly on failure. */
  predicate WellFormed(r: ConversionResult)
  {
    && (r.success ==> r.output.Some? && r.archive.Some? && r.error.None?)
    && (!r.success ==> r.output.None? && r.archive.None? && r.error.Some?)
  }

  /** The lower-cased extension of a file name, as the dispatcher computes it. */
  function ExtensionOf(name: string): string
  {
    Lower(SplitExt(name).ext)
  }

  /**
   The extension the dispatch looks at is the one `splitext` finds in the
   lower-cased name: lower-casing before or after splitting is the same, and
   the result is empty or a single dot-led extension.
   */
  lemma ExtensionOfLowered(name: string)
    ensures ExtensionOf(name) == SplitExt(Lower(name)).ext
    ensures ExtensionOf(name) == [] || ValidExt(ExtensionOf(name))
    ensures forall i :: 0 <= i < |ExtensionOf(name)| ==> !('A' <= ExtensionOf(name)[i] <= 'Z')
  {
    LowerSplitExt(name);
    var ext := SplitExt(name).ext;
    if ext != [] {
      LowerValidExt(ext);
    }
    LowerHasNoUpper(ext);
  }

  /**
   The conversion step of `process_file`. The builder is started exactly
   for `.vsdx`/`.vsdm` files when the library is present, the external chain
   (unoconv first) exactly for `.vsd`/`.vdw` files when a converter is
   reachable; otherwise nothing is started and the conversion fails.
   */
  function Dispatch(caps: Capabilities, name: string, oracle: FileOracle): (d: Dispatched)
    ensures CallBuilder in d.calls <==> ExtensionOf(name) in NativeExtensions && caps.vsdxSupport
    ensures (d.calls != [] && d.calls[0] == CallExternal(Unoconv)) <==>
              ExtensionOf(name) in ExternalExtensions && caps.vsdSupport
    ensures d.calls == [] <==>
              !(ExtensionOf(name) in NativeExtensions && caps.vsdxSupport)
              && !(ExtensionOf(name) in ExternalExtensions && caps.vsdSupport)
    ensures d.calls == [] ==> !d.converted
    ensures CallBuilder in d.calls ==>
              d.calls == [CallBuilder] && (d.converted <==> oracle.drawing.Some? && oracle.written)
    ensures d.calls != [] && d.calls[0] == CallExternal(Unoconv) ==>
              (d.converted <==> ConvertVsdToVdx(name, oracle.unoconv, oracle.soffice).converted)
  {
    var ext := ExtensionOf(name);
    ExtensionRoutesDisjoint(ext);
    if ext in NativeExtensions then
      if caps.vsdxSupport then
        var doc := Builder.ConvertVsdxToVdx(name, oracle.drawing, oracle.written);
        Dispatched(doc.Some?, [CallBuilder], doc)
      else Dispatched(false, [], None)
    else if ext in ExternalExtensions then
      if caps.vsdSupport then
        var chain := ConvertVsdToVdx(name, oracle.unoconv, oracle.soffice);
        Dispatched(chain.converted, Seqs.Map((t: Tool) => CallExternal(t), chain.tried), None)
      else Dispatched(false, [], None)
    else Dispatched(false, [], None)
  }

  /**
   The builder path is the only one that produces a document tree, and it
   does so exactly when it converts; that tree is the one built from the
   drawing, titled with the file's own name.
   */
  lemma DispatchDocument(caps: Capabilities, name: string, oracle: FileOracle)
    ensures var d := Dispatch(caps, name, oracle);
            && (d.document.Some? <==> CallBuilder in d.calls && d.converted)
            && (d.document.Some? ==>
                  d.document.value == Builder.BuildDocument(name, oracle.drawing.value)
                  && d.document.value.properties.title == name)
  {
  }

  /** The file ends up converted and archived. */
  predicate Succeeds(caps: Capabilities, name: string, oracle: FileOracle)
  {
    Dispatch(caps, name, oracle).converted && oracle.move.Moved?
  }

  /** The file system after a successful move: both new files present, the input gone. */
  lemma MovedFiles(layout: Layout, fs: FileSystem, input: Path, output: Path, archive: Path)
    requires layout.Valid()
    requires input.dir == layout.inputDir && output.dir == layout.outputDir && archive.dir == layout.archiveDir
    ensures var fs' := (fs + {output}) - {input} + {archive};
            && output in fs' && archive in fs' && input !in fs'
            && fs - {input} <= fs'
            && forall q :: q in fs' && q !in fs ==> q.dir == layout.outputDir || q.dir == layout.archiveDir
  {
  }

  /** The file system after a failed move: the written output is its one new file. */
  lemma RaisedFiles(layout: Layout, fs: FileSystem, input: Path, output: Path)
    requires layout.Valid()
    requires input.dir == layout.inputDir && output.dir == layout.outputDir && output !in fs
    ensures var fs' := fs + {output};
            && fs <= fs' && |fs' - fs| == 1 && (input in fs' <==> input in fs)
            && forall q :: q in fs' && q !in fs ==> q.dir == layout.outputDir
  {
    assert (fs + {output}) - fs == {output};
  }

  /**
   `process_file`. The output name (`<root>.vdx` in the output directory) and
   the archive name (the file's own name in the archive directory) are made
   collision-free against the file system as it was before converting. On
   success both files exist at fresh paths and the input is gone; otherwise
   the input is where it was. A failed conversion records the generic message
   and changes nothing; a failed move records the move's message and leaves
   the written output behind. No file other than the input disappears.
   */
  method ProcessFile(layout: Layout, caps: Capabilities, fs: FileSystem, input: Path, oracle: FileOracle)
    returns (res: ConversionResult, fs': FileSystem, calls: seq<Call>)
    requires layout.Valid()
    requires input.dir == layout.inputDir
    ensures res.filename == input.name
    ensures WellFormed(res)
    ensures calls == Dispatch(caps, input.name, oracle).calls
    ensures res.success <==> Succeeds(caps, input.name, oracle)
    ensures res.success ==>
              && Path(layout.outputDir, res.output.value) !in fs
              && Path(layout.outputDir, res.output.value) in fs'
              && Path(layout.archiveDir, res.archive.value) !in fs
              && Path(layout.archiveDir, res.archive.value) in fs'
              && input !in fs'
    ensures res.success && Path(layout.outputDir, SplitExt(input.name).root + ".vdx") !in fs ==>
              res.output == Some(SplitExt(input.name).root + ".vdx")
    ensures res.success && Path(layout.archiveDir, input.name) !in fs ==>
              res.archive == Some(input.name)
    ensures res.success ==>
              && FirstFree(fs, Path(layout.outputDir, SplitExt(input.name).root + ".vdx"),
                           Path(layout.outputDir, res.output.value))
              && FirstFree(fs, Path(layout.archiveDir, input.name), Path(layout.archiveDir, res.archive.value))
    ensures !res.success ==> (input in fs' <==> input in fs)
    ensures !Dispatch(caps, input.name, oracle).converted ==>
              fs' == fs && res.error == Some(ConversionFailedMessage)
    ensures Dispatch(caps, input.name, oracle).converted && oracle.move.MoveRaised? ==>
              res.error == Some(oracle.move.message) && fs <= fs' && |fs' - fs| == 1
    ensures Dispatch(caps, input.name, oracle).converted && oracle.move.MoveRaised? ==>
              exists o :: fs' == fs + {o} && FirstFree(fs, Path(layout.outputDir, SplitExt(input.name).root + ".vdx"), o)
    ensures fs - {input} <= fs'
    ensures forall q :: q in fs' && q !in fs ==> q.dir == layout.outputDir || q.dir == layout.archiveDir
  {
    var filename := input.name;
    var parts := SplitExt(filename);
    var output := GetUniqueFilename(fs, Path(layout.outputDir, parts.root + ".vdx"));
    var archive := GetUniqueFilename(fs, Path(layout.archiveDir, filename));
    var d := Dispatch(caps, filename, oracle);
    calls := d.calls;
    if d.converted {
      match oracle.move
      case Moved =>
        fs' := (fs + {output}) - {input} + {archive};
        MovedFiles(layout, fs, input, output, archive);
        res := ConversionResult(filename, Some(output.name), Some(archive.name), true, None);
      case MoveRaised(message) =>
        fs' := fs + {output};
        RaisedFiles(layout, fs, input, output);
        res := ConversionResult(filename, None, None, false, Some(message));
    } else {
      fs' := fs;
      res := ConversionResult(filename, None, None, false, Some(ConversionFailedMessage));
    }
  }
}

=== FILE: seqs.dfy ===
/**
 Order-preserving selection over sequences. The program builds its lists by
 walking an input in order and appending the elements that pass a test; the
 functions here are defined the same way, from the back, so that every
 prefix of the input is handled by the recursive call.
 */
module Seqs {

  /** The complement of a test. */
  function Not<T>(keep: T -> bool): T -> bool
  {
    x => !keep(x)
  }

  /** The elements of `s` that pass `keep`, in their original order. */
  function Filter<T>(keep: T -> bool, s: seq<T>): (r: seq<T>)
    ensures |r| <= |s|
    ensures forall k :: 0 <= k < |r| ==> r[k] in s && keep(r[k])
    ensures forall i :: 0 <= i < |s| && keep(s[i]) ==> s[i] in r
  {
    if s == [] then []
    else Filter(keep, s[..|s| - 1]) + (if keep(s[|s| - 1]) then [s[|s| - 1]] else [])
  }

  /** How many elements of `s` pass `keep`. */
  function Count<T>(keep: T -> bool, s: seq<T>): (n: nat)
    ensures n <= |s|
  {
    if s == [] then 0
    else Count(keep, s[..|s| - 1]) + (if keep(s[|s| - 1]) then 1 else 0)
  }

  /** The positions of the elements of `s` that pass `keep`, in increasing order. */
  function Selected<T>(keep: T -> bool, s: seq<T>): (ix: seq<nat>)
    ensures forall k :: 0 <= k < |ix| ==> ix[k] < |s| && keep(s[ix[k]])
    ensures forall k, l :: 0 <= k < l < |ix| ==> ix[k] < ix[l]
    ensures forall i :: 0 <= i < |s| && keep(s[i]) ==> i in ix
  {
    if s == [] then []
    else Selected(keep, s[..|s| - 1]) + (if keep(s[|s| - 1]) then [|s| - 1] else [])
  }

  /** Applies `f` to every element, keeping the order. */
  function Map<A, B>(f: A -> B, s: seq<A>): seq<B>
  {
    seq(|s|, i requires 0 <= i < |s| => f(s[i]))
  }

  /**
   `Filter` is exactly the selection of the positions `Selected` names:
   the k-th kept element is the element at the k-th kept position.
   */
  lemma {:induction false} FilterIsSelection<T>(keep: T -> bool, s: seq<T>)
    ensures |Filter(keep, s)| == |Selected(keep, s)| == Count(keep, s)
    ensures forall k :: 0 <= k < |Filter(keep, s)| ==> Filter(keep, s)[k] == s[Selected(keep, s)[k]]
  {
    if s != [] {
      var init := s[..|s| - 1];
      FilterIsSelection(keep, init);
      forall k | 0 <= k < |Selected(keep, init)|
        ensures Selected(keep, init)[k] < |init|
      {
      }
    }
  }

  /** Every element passes a test or its complement, never both. */
  lemma {:induction false} CountComplement<T>(keep: T -> bool, s: seq<T>)
    ensures Count(keep, s) + Count(Not(keep), s) == |s|
  {
    if s != [] {
      CountComplement(keep, s[..|s| - 1]);
    }
  }
}

=== FILE: unique_name.dfy ===
/**
 Collision-free naming (`get_unique_filename`): a path that is taken is
 replaced by `name_1.ext`, `name_2.ext`, ... in the same directory, the
 first one that is free.
 */
module UniqueName {
  import opened PathNames
  import opened Decimal

  /** The file system, as the set of paths that exist. */
  type FileSystem = set<Path>

  /** The k-th probe for `p`: its root, `_k`, then its extension. */
  function Candidate(p: Path, k: nat): Path
  {
    var parts := SplitExt(p.name);
    Path(p.dir, parts.root + "_" + NatToString(k) + parts.ext)
  }

  /** The probes `Candidate(p, 1)` up to `Candidate(p, n - 1)`. */
  ghost function Probed(p: Path, n: nat): set<Path>
  {
    if n <= 1 then {} else Probed(p, n - 1) + {Candidate(p, n - 1)}
  }

  /** Different counters give different probes. */
  lemma CandidateInjective(p: Path, j: nat, k: nat)
    ensures Candidate(p, j) == Candidate(p, k) ==> j == k
  {
    var parts := SplitExt(p.name);
    var a := NatToString(j);
    var b := NatToString(k);
    if Candidate(p, j) == Candidate(p, k) {
      var nj := parts.root + "_" + a + parts.ext;
      var nk := parts.root + "_" + b + parts.ext;
      assert nj == nk;
      assert |a| == |b|;
      var lo := |parts.root| + 1;
      assert nj[lo..lo + |a|] == a;
      assert nk[lo..lo + |b|] == b;
      NatToStringInjective(j, k);
    }
  }

  /** A probe never repeats the name it stands in for. */
  lemma CandidateDiffers(p: Path, k: nat)
    ensures Candidate(p, k) != p
  {
    var parts := SplitExt(p.name);
    assert |Candidate(p, k).name| == |parts.root| + 1 + |NatToString(k)| + |parts.ext|;
  }

  lemma {:induction false} ProbedExcludes(p: Path, n: nat, k: nat)
    requires k >= n
    ensures Candidate(p, k) !in Probed(p, n)
  {
    if n > 1 {
      ProbedExcludes(p, n - 1, k);
      CandidateInjective(p, n - 1, k);
    }
  }

  /** The first `n - 1` probes are pairwise distinct. */
  lemma {:induction false} ProbedSize(p: Path, n: nat)
    requires n >= 1
    ensures |Probed(p, n)| == n - 1
  {
    if n > 1 {
      ProbedSize(p, n - 1);
      ProbedExcludes(p, n - 1, n - 1);
    }
  }

  /**
   `r` is where the probing settles: `p` itself when it is free, otherwise
   the first `_k` probe, counting from 1, that is free.
   */
  ghost predicate FirstFree(fs: FileSystem, p: Path, r: Path)
  {
    && r !in fs
    && (p !in fs ==> r == p)
    && (p in fs ==> exists k :: 1 <= k && r == Candidate(p, k) && forall j :: 1 <= j < k ==> Candidate(p, j) in fs)
  }

  /**
   A free path comes back unchanged. A taken one comes back as the probe with
   the least counter `k >= 1` that is free; every earlier probe is taken, so
   the probing stops after at most `|fs| + 1` attempts. The result is never
   an existing path.
   */
  method GetUniqueFilename(fs: FileSystem, p: Path) returns (r: Path)
    ensures r !in fs
    ensures p !in fs ==> r == p
    ensures p in fs ==> exists k :: 1 <= k <= |fs| + 1 && r == Candidate(p, k)
                                    && forall j :: 1 <= j < k ==> Candidate(p, j) in fs
    ensures r.dir == p.dir
    ensures FirstFree(fs, p, r)
  {
    if p !in fs {
      return p;
    }
    var counter := 1;
    while true
      invariant counter >= 1
      invariant Probed(p, counter) <= fs
      invariant counter <= |fs| + 1
      invariant forall j :: 1 <= j < counter ==> Candidate(p, j) in fs
      decreases |fs| + 1 - counter
    {
      var next := Candidate(p, counter);
      if next !in fs {
        SettlesOn(fs, p, counter, |fs| + 1);
        return next;
      }
      ProbeStep(fs, p, counter);
      counter := counter + 1;
    }
  }

  /** The first free probe, found by counting up, is where the probing settles. */
  lemma SettlesOn(fs: FileSystem, p: Path, k: nat, bound: nat)
    requires p in fs && 1 <= k <= bound
    requires forall j :: 1 <= j < k ==> Candidate(p, j) in fs
    requires Candidate(p, k) !in fs
    ensures Candidate(p, k).dir == p.dir
    ensures FirstFree(fs, p, Candidate(p, k))
    ensures exists m :: 1 <= m <= bound && Candidate(p, k) == Candidate(p, m)
                        && forall j :: 1 <= j < m ==> Candidate(p, j) in fs
  {
  }

  /** A taken probe joins the probed set, which stays inside `fs` and so bounds the counter. */
  lemma ProbeStep(fs: FileSystem, p: Path, k: nat)
    requires 1 <= k
    requires Probed(p, k) <= fs
    requires Candidate(p, k) in fs
    requires forall j :: 1 <= j < k ==> Candidate(p, j) in fs
    ensures Probed(p, k + 1) <= fs
    ensures k + 1 <= |fs| + 1
    ensures forall j :: 1 <= j < k + 1 ==> Candidate(p, j) in fs
  {
    ProbedSize(p, k + 1);
    SubsetSize(Probed(p, k + 1), fs);
  }

  /**
   The outcome `GetUniqueFilename` promises for a taken path is unique: when
   probes 1 to `m - 1` are taken and probe `m` is free, the result is probe `m`.
   */
  lemma ProbeIsLeast(fs: FileSystem, p: Path, r: Path, m: nat)
    requires r !in fs
    requires exists k :: 1 <= k && r == Candidate(p, k) && forall j :: 1 <= j < k ==> Candidate(p, j) in fs
    requires 1 <= m
    requires forall j :: 1 <= j < m ==> Candidate(p, j) in fs
    requires Candidate(p, m) !in fs
    ensures r == Candidate(p, m)
  {
  }

  lemma SubsetSize<T>(a: set<T>, b: set<T>)
    requires a <= b
    ensures |a| <= |b|
  {
    assert b == a + (b - a);
  }
}

/** Worked examples of the probe names for `foo.vdx`. */
module NamingScenario {
  import opened PathNames
  import opened Decimal
  import opened UniqueName

  lemma SplitFooVdx()
    ensures SplitExt("foo.vdx") == Split("foo", ".vdx")
  {
    var s := "foo.vdx";
    LastIndexOfUnique(s, '/', -1);
    LastIndexOfUnique(s, '.', 3);
    assert s[0..3] == "foo" && s[3..] == ".vdx";
    assert !AllDots(s[0..3]) by {
      assert s[0..3][0] == 'f';
    }
  }

  /** Probe `k` of `foo.vdx` is `foo_<k>.vdx`: the counter goes between root and extension. */
  lemma FooCandidateK(dir: string, k: nat)
    ensures Candidate(Path(dir, "foo.vdx"), k) == Path(dir, "foo_" + NatToString(k) + ".vdx")
  {
    SplitFooVdx();
    assert "foo" + "_" == "foo_";
  }

  /** The counters 1 and 2 render as the single digits `1` and `2`. */
  lemma SmallCounters()
    ensures NatToString(1) == "1" && NatToString(2) == "2"
  {
  }

  /**
   Two files of the same name in a row: with `p` taken, the next one gets
   probe 1 and, with that taken too, the one after it gets probe 2.
   */
  method RepeatedCollisions(p: Path) returns (first: Path, second: Path)
    ensures first == Candidate(p, 1)
    ensures second == Candidate(p, 2)
  {
    CandidateDiffers(p, 1);
    CandidateDiffers(p, 2);
    CandidateInjective(p, 1, 2);
    var fs := {p};
    first := GetUniqueFilename(fs, p);
    ProbeIsLeast(fs, p, first, 1);
    second := GetUniqueFilename(fs + {first}, p);
    ProbeIsLeast(fs + {first}, p, second, 2);
  }

}
